=== FILE: README.md ===
# Source-population redshift and flux model (FIRESONG `Evolution.py`)

This project is a Dafny model of the population engine of FIRESONG's
`Evolution.py`. It covers:

- the four source-density evolution laws and how `get_evolution` selects one
  by name;
- `SourcePopulation`, which computes the redshift distribution, the total
  source count within a horizon, flux/luminosity conversion at z = 1,
  standard-candle normalisation and the inverse-transform sampling table for
  redshifts;
- `TransientSourcePopulation`, which divides the burst rate by `1 + z` and
  normalises fluence instead of flux.

The model uses exact reals. Four things stay opaque. Each is a function
value in a datatype:

- the transcendental functions `log10` and `pow`. The only fact assumed is
  that a positive base raised to any power is positive. That fact is carried
  by the subset type `Oracles.Power`;
- the cosmolopy distance provider: luminosity distance, comoving volume and
  differential comoving volume;
- `scipy.integrate.quad`. It receives the integrand as a function value, so
  the model can say which integrand is integrated;
- the uniform random draw. It is a parameter: the sequence `us` of variates.

Every Python exception is a `Results.Error` value:

- `NotImplemented` for `NotImplementedError`;
- `ArityMismatch` for `TypeError`;
- `DivisionByZero` for `ZeroDivisionError`;
- `IndexOutOfBounds` for `IndexError`;
- `MissingAttribute` for `AttributeError`.

Modules follow the structure of the source:

- `Results`: outcome and error types.
- `Oracles`: the opaque collaborators and `set_omega_k_0`.
- `Evolution`: the laws and `get_evolution`.
- `Tables`: `np.arange`, `np.cumsum`, normalisation, `np.searchsorted` and
  drawing from a table.
- `Sources`: `SourcePopulation` and `TransientSourcePopulation`. The field
  `kind` picks the class.

## Model

| member | source | states |
|---|---|---|
| Evolution.GetEvolution | Evolution.py:11-21 | Succeeds exactly for the four names NoEvolution, HB2006SFR, YMKBH2008SFR and CC2015SNR. The law returned carries the requested name. Any other name fails with NotImplementedError and the message "Source evolution <name> not implemented." |
| Evolution.NameRoundTrip | Evolution.py:11-16 | Each law is returned for its own registered name and for no other name, so the registry is a bijection. |
| Evolution.Instantiate | Evolution.py:24-26 | Instantiating a law class succeeds only when `__init__` declares exactly one parameter (`self`). Otherwise it is a TypeError. |
| Evolution.GetEvolutionAsWritten | Evolution.py:11-26 | As written, every call fails. Unknown names raise NotImplementedError. Registered names raise TypeError, because `__init__` declares no `self`. |
| Evolution.MissingSelfBreaksRegistry | Evolution.py:11-26 | For every registered name, the corrected lookup returns the law and the as-written lookup raises TypeError. |
| Evolution.GuardsPartition | Evolution.py:45-50 | The three Hopkins–Beacom branch conditions partition the reals. Exactly one holds at every x, namely the one for the segment containing x. |
| Evolution.HopkinsBeacom | Evolution.py:44-50 | The chain of three `if`s never falls through to Python's implicit None. It returns 10 raised to the exponent of the segment containing x, which is positive. |
| Evolution.Yuksel | Evolution.py:61-74 | The smoothly broken power law, with its hard-coded constants, is positive for every positive argument `u = 1 + z`. |
| Evolution.CandelsClash | Evolution.py:78-84 | The Candels/Clash rate is positive at every x. Its denominator is always above 1, so it never divides by zero. |
| Evolution.Parametrization | Evolution.py:35-84 | NoEvolution's parametrisation is 1. Every law's parametrisation is positive wherever its argument is valid: any x, or a positive `1 + z` for Yuksel. |
| Evolution.Evaluate | Evolution.py:31-59 | NoEvolution evaluates to exactly 1 at every redshift. Every law is positive at every z > -1. |
| Evolution.ArgumentRouting | Evolution.py:31-59 | The Yuksel law receives `1 + z` and never consults `log10`. Every other law receives `log10(1 + z)`, and its value depends on z only through `log10(1 + z)`. |
| Oracles.SetOmegaK0 | Evolution.py:94-95 | Afterwards a curvature density is always present. One the caller supplied is kept unchanged. A missing one is derived so that the three density parameters sum to 1. Matter density, dark-energy density and h are kept. |
| Oracles.SetOmegaK0Idempotent | Evolution.py:94-95 | Setting the curvature of an already-set parameter set changes nothing. |
| Sources.NewPopulation | Evolution.py:88-96 | A parameter set without a curvature density is made flat, and one with it is kept. `dL1` is the luminosity distance at z = 1 under the resulting parameters. No sampling table exists yet. |
| Sources.SteadyDistribution | Evolution.py:98-101 | Above z = -1, the distribution is positive, zero or negative exactly as the differential comoving volume is. |
| Sources.RedshiftDistribution | Evolution.py:210-211 | A steady population uses the base distribution. A transient population's value times `1 + z` equals the base distribution, which is the time-dilation override. |
| Sources.DistributionSign | Evolution.py:210-211 | Above z = -1, where the volume element is non-negative, the distribution of either kind is non-negative. It is positive exactly where the volume element is positive. |
| Sources.Integrand | Evolution.py:103-108 | The integrand passed to quadrature is looked up on the instance. A steady population integrates 4π · law(z) · dV/dz. A transient population integrates that value divided by 1 + z, defined everywhere except z = -1. |
| Sources.RedshiftIntegral | Evolution.py:103-108 | The integral is the quadrature from 0 to zmax of a function that equals, wherever it is defined, the distribution of the population's own kind: undiluted for steady sources, divided by 1 + z for transients. |
| Sources.Nsources | Evolution.py:134-147 | The count is defined exactly when the local and horizon integrals are non-zero. Then N · I(zlocal) = density · V(zlocal) · I(zmax). |
| Sources.NsourcesLinear | Evolution.py:144-146 | The source count is linear in the local density. |
| Sources.NsourcesScale | Evolution.py:144-146 | Scaling the density by c scales the count by c. For non-zero c, the count is zero exactly when the unscaled count is. |
| Sources.NsourcesMonotone | Evolution.py:144-146 | For a non-negative density and local volume and a positive local integral, the count does not decrease as the horizon integral grows. |
| Sources.Flux2Lumi | Evolution.py:149-165 | For a positive pivot and energy range, the conversion succeeds: the model fails exactly when E0 = 0, and then with a division by zero. |
| Sources.Lumi2Flux | Evolution.py:167-183 | For a positive pivot and energy range, the conversion is defined exactly when dL1 and the energy integral are non-zero. Its only failure is a division by zero. |
| Sources.IndexSignIrrelevant | Evolution.py:159-178 | Both conversions give the same result for `index` and `-index`, because both use `abs(index)`. |
| Sources.Flux2LumiScales | Evolution.py:161-163 | The luminosity is the flux normalisation times one conversion factor: energy integral × units × 4π dL1² / E0². |
| Sources.Lumi2FluxScales | Evolution.py:180-182 | The flux normalisation times the same conversion factor gives back the luminosity. The factor is non-zero. |
| Sources.FluxLumiRoundTrip | Evolution.py:149-183 | `Lumi2Flux(Flux2Lumi(F)) == F`. The way back is defined exactly when dL1 and the energy integral are non-zero. |
| Sources.LumiFluxRoundTrip | Evolution.py:149-183 | `Flux2Lumi(Lumi2Flux(L)) == L` whenever `Lumi2Flux` is defined. |
| Sources.StandardCandleSources | Evolution.py:185-230 | The result phi satisfies phi · N · dL1² · J = all-sky value. J is the integral over the fixed range [0, 10]. The all-sky value is 4π·fluxnorm, or 4π·fluxnorm·seconds-per-year for transients. The result is defined exactly when N, dL1 and J are non-zero. |
| Sources.StandardCandleFluxLinear | Evolution.py:195-203 | The standard-candle normalisation is linear in the observed flux. |
| Sources.StandardCandleDensityScaling | Evolution.py:194-203 | Scaling the local density by c divides the normalisation by c, and leaves definedness unchanged. |
| Sources.SetupRedshiftCdf | Evolution.py:110-120 | Fails with a division by zero when `bins` or `zmax` is zero. Otherwise it succeeds exactly when three things hold: the distribution is defined at every bin edge, the grid is non-empty, and the distribution's total over the edges is non-zero. An empty grid is the IndexError of taking the last entry. Any other failure is a division by zero. On success: the bins are `np.arange(zmin, zmax, zmax/bins)`; the CDF has the same non-zero length; the CDF is the normalised running sum of the distribution at the bins; only the table changes. With a positive step, the bins start at zmin, strictly increase and lie in [zmin, zmax). With a non-negative distribution, the CDF is non-decreasing, lies in [0, 1] and ends at 1. |
| Sources.Pdf | Evolution.py:114-115 | There is one value per bin edge. Each is the distribution of the population's kind at that edge: the steady value, or for transients the steady value divided by 1 + z. |
| Sources.PdfNonNegative | Evolution.py:114-115 | Above z = -1, if the volume element is non-negative at every bin edge, then the evaluated distribution is non-negative. |
| Sources.TableAttribute | Evolution.py:119-120 | `redshift_bins` and `redshift_cdf` exist exactly once a table has been built, and hold the stored bin edges and CDF respectively. Any other table attribute name, such as a misspelling, is an AttributeError naming it. |
| Sources.SampleRedshiftAsWritten | Evolution.py:122-128 | As written, sampling reads `redshif_cdf` and fails with AttributeError on every population. |
| Sources.SampleRedshift | Evolution.py:122-128 | With the evident fix, sampling before setup fails naming `redshift_cdf`. Otherwise it returns one bin edge per variate. Every draw in [0, 1) against a normalised table succeeds. |
| Sources.MisspeltAttributeBreaksSampling | Evolution.py:126 | On every population with a normalised table and for every draw in [0, 1), the intended code samples successfully and the as-written code fails. |
| Sources.SampleWithinHorizon | Evolution.py:110-128 | Assume a positive step, and a distribution that is defined and non-negative at every bin edge and positive at some edge. Then setup succeeds, and every draw in [0, 1) returns the bin edge at the first CDF entry not below the draw, and that edge lies in [zmin, zmax). |
| Tables.RunningSum | Evolution.py:116 | Entry i of the running sum from `acc` is acc plus the sum of the first i+1 entries. |
| Tables.CumSum | Evolution.py:116 | `np.cumsum`: entry i is the sum of the first i+1 entries, and the last entry is the total. |
| Tables.PrefixSumMonotone | Evolution.py:116 | Prefix sums of a non-negative sequence are non-negative and do not decrease as the prefix grows. |
| Tables.CumSumSorted | Evolution.py:116 | The running sum of a non-negative sequence is non-negative and non-decreasing. |
| Tables.Normalize | Evolution.py:117 | Element-wise division: each result entry times the divisor gives back the input entry. |
| Tables.NormalizeByLastIsCdf | Evolution.py:117 | Dividing a non-negative, non-decreasing sequence by its positive last entry gives a CDF: non-decreasing, within [0, 1] and ending at 1. |
| Tables.NormalizedCumSum | Evolution.py:116-117 | An empty PDF is an IndexError on `[-1]`. A zero total is a division by zero. Otherwise entry i times the total equals the i-th prefix sum. |
| Tables.PositiveSum | Evolution.py:116-117 | A non-negative sequence has a non-negative sum. The sum is positive exactly when some entry is positive. |
| Tables.NormalizedCumSumIsCdf | Evolution.py:116-117 | For a non-negative PDF, normalisation succeeds exactly when some entry is positive, and the result is then a CDF. |
| Tables.Arange | Evolution.py:111 | `np.arange`: the grid points start + i·step, all strictly before stop, in order. The next grid point would be at or past stop. |
| Tables.ArangeIncreasing | Evolution.py:111 | With a positive step the grid starts at `start` and strictly increases. |
| Tables.FirstAtLeast | Evolution.py:126 | Reference lookup: the least index whose entry is at least v, or the length if there is none. |
| Tables.SearchLeft | Evolution.py:126 | The binary search keeps its answer in the window. It preserves "everything before is below v, everything from it on is at least v" on a sorted array. |
| Tables.SearchSorted | Evolution.py:126 | `np.searchsorted(side='left')` returns an insertion point in [0, n]. On a sorted array, entries before it are below v and entries from it on are at least v. |
| Tables.SearchSortedIsFirstAtLeast | Evolution.py:126 | On a sorted array the binary search equals the reference lookup, with ties going to the lower index. |
| Tables.Draw | Evolution.py:126-127 | A draw returns a bin edge or an IndexError. For a normalised table and u in [0, 1), the index is in bounds and the draw is the edge at the first CDF entry not below u. |
| Tables.DrawAll | Evolution.py:125-127 | Vectorised draws either all succeed, one per variate and each equal to the single draw, or fail with the error of some draw. On a normalised table with variates in [0, 1) they succeed. |

## Left out

- Numerical integration: each `quad` result is an opaque real. Its accuracy is not modelled.
- Cosmology: distances and volumes come from an opaque provider. `set_omega_k_0` returns the parameter set with `omega_k_0` set, and the model likewise returns a new value. The module-level dictionary at Evolution.py:8 is a value callers may pass. The constructor has no default.
- Oracles.SetOmegaK0: follows cosmolopy as published. cosmolopy is not part of this model, and its behaviour is restated from its documented interface.
- Transcendental formulas: `log10` and `pow` are opaque. The branch values of the Hopkins–Beacom law, the Yuksel and Candels/Clash formulas and the `(1+z)^(shift-γ)` weight are therefore stated only structurally and by sign. The near-continuity of the Hopkins–Beacom branches at the breakpoints is not stated.
- Floating point: the model uses exact reals. Rounding can change the length of `np.arange` by one, and the last normalised CDF entry may not be exactly 1. Underflow of `pow` to 0 and NaN inputs are outside the model. In particular `log10(1+z)` for z ≤ -1 is not modelled. At z = -1 the source's Hopkins–Beacom and Candels/Clash laws give 0, and below it the Hopkins–Beacom chain of `if`s returns None for the NaN argument. Evolution.Evaluate and Sources.SteadyDistribution therefore state positivity and sign only for z > -1.
- numpy non-exceptions: the model treats every division by zero as `DivisionByZero`. In several places numpy would give inf or nan with a warning instead: numpy scalars in `Nsources`, the normalisation by a zero CDF total, and `1/(1+z)` at a bin edge of -1.
- Sources.SampleRedshift: `N == 1` returns a scalar in the source. The model always returns a sequence with one entry per variate.
- Randomness: `np.random.rand` is replaced by the parameter `us`. Its length plays the role of `N`.
- Sources.SetupRedshiftCdf: the default arguments `zmin = 0.0005` and `bins = 10000` are the constants `DefaultZmin` and `DefaultBins`. Dafny callers pass them explicitly.
- Sources.Flux2Lumi and Sources.Lumi2Flux: the default pivot energy `E0 = 1e5` (Evolution.py:149, 167) is the constant `DefaultE0`. Dafny callers pass `e0` explicitly. Errors raised inside the energy integrand during quadrature are not modelled either. Where `E/E0` is negative and `abs(index)` is not an integer, Python's `**` gives a complex number that `quad` rejects. The model's `pow` is total, so its success conditions are those of the source only for a positive pivot and a positive energy range.
- Sources.StandardCandleSources: errors raised while `quad` evaluates its integrand are not modelled. In the source the integrand fails where the luminosity distance is zero, and at z = -1 for transients. It also fails at z = -1 whenever `abs(index)` exceeds the exponent shift (2 steady, 3 transient), because 0 is then raised to a negative power. The model's `pow` is total, so `CandleDefined` does not exclude that point. The luminosity distance vanishes at z = 0, the lower endpoint of [0, 10], which quadrature's interior nodes never evaluate. The other points lie outside [0, 10].
- Sources.NsourcesMonotone: monotonicity in `zmax` itself depends on the quadrature oracle. The lemma is therefore stated in terms of the horizon integral.

## Findings

| source | as written | input that shows it | evidently intended | confidence | as-written member | corrected member |
|---|---|---|---|---|---|---|
| Evolution.py:25 | `def __init__():` declares no `self`, so instantiating any law class raises TypeError, and `get_evolution` (Evolution.py:21) never returns a law | `get_evolution("NoEvolution")` | `def __init__(self):` | high; not executed | Evolution.GetEvolutionAsWritten (shown by Evolution.MissingSelfBreaksRegistry) | Evolution.GetEvolution |
| Evolution.py:126 | `sample_redshift` reads `self.redshif_cdf`, which nothing sets, so every call raises AttributeError | `setup_redshift_cdf(1.0)` then `sample_redshift()` | read `self.redshift_cdf` (Evolution.py:120) | high; not executed | Sources.SampleRedshiftAsWritten (shown by Sources.MisspeltAttributeBreaksSampling) | Sources.SampleRedshift |

=== FILE: evolution.dfy ===
/** Source-density evolution laws and their selection by name. Every law is a
    function of the redshift `z`; all but the Yuksel et al. law evaluate their
    parametrisation at `x = log10(1 + z)`. */
module Evolution {
  import opened Results
  import opened Oracles

  /** The four registered laws. */
  datatype Law = NoEvolution | HB2006SFR | YMKBH2008SFR | CC2015SNR

  /** The registration name of each law. */
  function Name(law: Law): string
  {
    match law
    case NoEvolution => "NoEvolution"
    case HB2006SFR => "HB2006SFR"
    case YMKBH2008SFR => "YMKBH2008SFR"
    case CC2015SNR => "CC2015SNR"
  }

  /** The name-to-law table of `get_evolution`. */
  const Registry: map<string, Law> := map[
    "NoEvolution" := NoEvolution,
    "HB2006SFR" := HB2006SFR,
    "YMKBH2008SFR" := YMKBH2008SFR,
    "CC2015SNR" := CC2015SNR]

  /** Number of parameters `Evolution.__init__` declares as written: none,
      not even `self`. */
  const DeclaredInitParams: nat := 0

  /** Instantiating a law class: Python passes the new instance as the one
      argument of `__init__`, which fails unless exactly one parameter is
      declared. */
  function Instantiate(law: Law, declared: nat): (r: Result<Law>)
    ensures r.Ok? <==> declared == 1
    ensures r.Ok? ==> r.value == law
    ensures r.Err? ==> r.error == ArityMismatch("__init__", declared, 1)
  {
    if declared == 1 then Ok(law) else Err(ArityMismatch("__init__", declared, 1))
  }

  function UnknownLawMessage(name: string): string
  {
    "Source evolution " + name + " not implemented."
  }

  /** `get_evolution` as written: the lookup succeeds for registered names,
      but the instantiation then fails because `__init__` lacks `self`. */
  function GetEvolutionAsWritten(name: string): (r: Result<Law>)
    ensures r.Err?
    ensures name !in Registry ==> r.error == NotImplemented(UnknownLawMessage(name))
    ensures name in Registry ==> r.error == ArityMismatch("__init__", 0, 1)
  {
    if name !in Registry then Err(NotImplemented(UnknownLawMessage(name)))
    else Instantiate(Registry[name], DeclaredInitParams)
  }

  /** `get_evolution` with `__init__(self)` as evidently intended: the law
      registered under `name`, or `NotImplementedError` naming it. */
  function GetEvolution(name: string): (r: Result<Law>)
    ensures r.Ok? <==> name in {"NoEvolution", "HB2006SFR", "YMKBH2008SFR", "CC2015SNR"}
    ensures r.Ok? ==> Name(r.value) == name
    ensures r.Err? ==> r.error == NotImplemented(UnknownLawMessage(name))
  {
    if name !in Registry then Err(NotImplemented(UnknownLawMessage(name)))
    else Instantiate(Registry[name], 1)
  }

  /** Every law is reachable under its own name, and under no other. */
  lemma NameRoundTrip(law: Law, name: string)
    ensures GetEvolution(Name(law)) == Ok(law)
    ensures GetEvolution(name) == Ok(law) <==> name == Name(law)
  {
  }

  /** The missing `self` makes every registered name fail that the corrected
      lookup resolves. */
  lemma MissingSelfBreaksRegistry(name: string)
    requires name in Registry
    ensures GetEvolution(name) == Ok(Registry[name])
    ensures GetEvolutionAsWritten(name) == Err(ArityMismatch("__init__", 0, 1))
  {
  }

  // ---------------------------------------------------------------------
  // Hopkins & Beacom 2006: three segments in x = log10(1 + z)

  const LowBreak: real := 0.30963
  const HighBreak: real := 0.73878

  datatype Segment = Rising | Plateau | Falling

  /** The condition under which the source takes each segment's branch. */
  predicate Guard(s: Segment, x: real)
  {
    match s
    case Rising => x < LowBreak
    case Plateau => x >= LowBreak && x < HighBreak
    case Falling => x >= HighBreak
  }

  /** The segment containing `x`. */
  function SegmentOf(x: real): Segment
  {
    if x < LowBreak then Rising else if x < HighBreak then Plateau else Falling
  }

  /** The base-10 exponent of the star-formation rate on each segment. */
  function SegmentExponent(s: Segment, x: real): real
  {
    match s
    case Rising => 3.28 * x - 1.82
    case Plateau => -0.26 * x - 0.724
    case Falling => -8.0 * x + 4.99
  }

  /** The three guards partition the reals: exactly one holds at every `x`. */
  lemma GuardsPartition(x: real, s: Segment)
    ensures Guard(s, x) <==> s == SegmentOf(x)
  {
  }

  /** The parametrisation as coded: three `if`s in a row and, should none of
      them fire, Python's implicit `None`. */
  function HopkinsBeacom(m: Math, x: real): (r: Option<real>)
    ensures r == Some(m.pow(10.0, SegmentExponent(SegmentOf(x), x)))
    ensures r.Some? && r.value > 0.0
  {
    if x < LowBreak then Some(m.pow(10.0, 3.28 * x - 1.82))
    else if x >= LowBreak && x < HighBreak then Some(m.pow(10.0, -0.26 * x - 0.724))
    else if x >= HighBreak then Some(m.pow(10.0, -8.0 * x + 4.99))
    else None
  }

  // ---------------------------------------------------------------------
  // Yuksel et al. 2008: smoothly broken power law in u = 1 + z

  const YukselA: real := 3.4
  const YukselB: real := -0.3
  const YukselC: real := -3.5
  /** (1 + z1)^(1 - a/b) for z1 = 1, precomputed. */
  const YukselBreakB: real := 5160.63662037
  /** (1 + z1)^((b - a)/c) * (1 + z2)^(1 - b/c) for z1 = 1, z2 = 4, precomputed. */
  const YukselBreakC: real := 9.06337604231
  const YukselEta: real := -10.0
  const YukselR0: real := 0.02

  function Yuksel(m: Math, u: real): (r: real)
    ensures u > 0.0 ==> r > 0.0
  {
    var sum := m.pow(u, YukselA * YukselEta)
             + m.pow(u / YukselBreakB, YukselB * YukselEta)
             + m.pow(u / YukselBreakC, YukselC * YukselEta);
    YukselR0 * m.pow(sum, 1.0 / YukselEta)
  }

  // ---------------------------------------------------------------------
  // Candels/Clash 2015 supernova rate

  function CandelsClash(m: Math, x: real): (r: real)
    ensures r > 0.0
  {
    var a, b, c, d := 0.015, 1.5, 5.0, 6.1;
    var tenX := m.pow(10.0, x);
    var denominator := m.pow(tenX / b, d) + 1.0;
    assert denominator > 1.0;
    a * m.pow(tenX, c) / denominator
  }

  // ---------------------------------------------------------------------
  // Evaluation

  /** Each law's `parametrization`. */
  function Parametrization(law: Law, m: Math, x: real): (r: real)
    ensures law == NoEvolution ==> r == 1.0
    ensures law != YMKBH2008SFR || x > 0.0 ==> r > 0.0
  {
    match law
    case NoEvolution => 1.0
    case HB2006SFR => HopkinsBeacom(m, x).value
    case YMKBH2008SFR => Yuksel(m, x)
    case CC2015SNR => CandelsClash(m, x)
  }

  /** `law(z)`: `Evolution.__call__` evaluates at `log10(1 + z)`; the Yuksel
      law overrides `__call__` and evaluates at `1 + z`. */
  function Evaluate(law: Law, m: Math, z: real): (r: real)
    ensures law == NoEvolution ==> r == 1.0
    ensures z > -1.0 ==> r > 0.0
  {
    match law
    case YMKBH2008SFR => Parametrization(law, m, 1.0 + z)
    case _ => Parametrization(law, m, m.log10(1.0 + z))
  }

  /** Which argument each law's parametrisation receives: the Yuksel law sees
      `1 + z` and never consults `log10`; every other law sees `z` only through
      `log10(1 + z)`. */
  lemma ArgumentRouting(law: Law, m: Math, m': Math, z: real, z': real)
    requires m.pow == m'.pow
    ensures law == YMKBH2008SFR ==> Evaluate(law, m, z) == Parametrization(law, m', 1.0 + z)
    ensures law == YMKBH2008SFR ==> Evaluate(law, m, z) == Evaluate(law, m', z)
    ensures law != YMKBH2008SFR ==> Evaluate(law, m, z) == Parametrization(law, m, m.log10(1.0 + z))
    ensures law != YMKBH2008SFR && m.log10(1.0 + z) == m'.log10(1.0 + z') ==>
              Evaluate(law, m, z) == Evaluate(law, m', z')
  {
  }
}

=== FILE: oracles.dfy ===
/** The collaborators the population code consumes but does not implement:
    transcendental functions, the cosmology distance provider and numerical
    quadrature. Each is an opaque function value; the only fact assumed about
    any of them is that a positive base raised to any real power is positive. */
module Oracles {
  import opened Results

  /** `np.power` / Python `**` over the reals: positive for a positive base. */
  type Power = f: (real, real) -> real | forall b: real, e: real :: b > 0.0 ==> f(b, e) > 0.0
    witness (b: real, e: real) => 1.0

  /** The transcendental functions the evolution laws use. */
  datatype Math = Math(log10: real -> real, pow: Power)

  /** A cosmolopy parameter set: matter and dark-energy densities, the reduced
      Hubble constant and the curvature density, which a parameter set may
      leave out. */
  datatype Cosmology = Cosmology(omegaM: real, omegaL: real, h: real, omegaK: Option<real>)

  /** The cosmology distance provider, each operation a function of the
      parameter set and the redshift. */
  datatype Provider = Provider(
    luminosityDistance: (Cosmology, real) -> real,
    comovingVolume: (Cosmology, real) -> real,
    diffComovingVolume: (Cosmology, real) -> real)

  /** `scipy.integrate.quad(f, a, b)[0]`: the integrand may be undefined at
      isolated points (a division by `1 + z` or by a distance). */
  type Quadrature = (real --> real, real, real) -> real

  /** `np.pi` as the double it is. */
  const Pi: real := 3.141592653589793

  /** `cosmolopy.distance.set_omega_k_0`: a curvature density the caller
      supplied is kept; a missing one is derived so that the universe is
      flat. Every other parameter is kept. */
  function SetOmegaK0(c: Cosmology): (r: Cosmology)
    ensures r.omegaK.Some?
    ensures c.omegaK.Some? ==> r == c
    ensures c.omegaK.None? ==> r.omegaM + r.omegaL + r.omegaK.value == 1.0
    ensures r.omegaM == c.omegaM && r.omegaL == c.omegaL && r.h == c.h
  {
    match c.omegaK
    case Some(_) => c
    case None => c.(omegaK := Some(1.0 - c.omegaM - c.omegaL))
  }

  /** Setting the curvature twice is setting it once. */
  lemma SetOmegaK0Idempotent(c: Cosmology)
    ensures SetOmegaK0(SetOmegaK0(c)) == SetOmegaK0(c)
  {
  }
}

=== FILE: results.dfy ===
/** Outcomes of the modelled operations: a value, or the exception the
    Python code raises instead. */
module Results {

  /** The exceptions the modelled code can raise. */
  datatype Error =
    /** `NotImplementedError` with its message (unknown evolution law). */
    | NotImplemented(message: string)
    /** `TypeError` for a call whose argument count does not match the
        declared parameters of `callee`. */
    | ArityMismatch(callee: string, declared: nat, passed: nat)
    /** `ZeroDivisionError` (or the inf/nan numpy would produce instead). */
    | DivisionByZero
    /** `IndexError` for `index` into a sequence of length `size`. */
    | IndexOutOfBounds(index: int, size: nat)
    /** `AttributeError` for an instance attribute that was never set. */
    | MissingAttribute(name: string)

  datatype Option<+T> = None | Some(value: T)

  datatype Result<+T> = Ok(value: T) | Err(error: Error) {

    predicate IsFailure() {
      Err?
    }

    function PropagateFailure<U>(): Result<U>
      requires Err?
    {
      Err(error)
    }

    function Extract(): T
      requires Ok?
    {
      value
    }
  }
}

=== FILE: sources.dfy ===
/** `SourcePopulation` and its transient specialisation: redshift
    distribution, source counts, flux/luminosity conversion, standard-candle
    normalisation and the inverse-transform sampling table. */
module Sources {
  import opened Results
  import opened Oracles
  import opened Evolution
  import opened Tables

  /** A steady population, or a transient one whose observed burst rate is
      diluted by `1 + z`. */
  datatype Kind = Steady | Transient

  /** Redshift of the local volume that anchors the source count. */
  const ZLocal: real := 0.01
  /** Centimetres per megaparsec. */
  const MpcToCm: real := 3086000000000000000000000.0
  /** (GeV/s) / (erg/yr). */
  const GevPerSecToErgsPerYear: real := 50526.0
  /** 86400 * 365. */
  const SecondsPerYear: real := 31536000.0
  /** Default pivot energy of the power-law spectrum, in GeV. */
  const DefaultE0: real := 100000.0
  /** Default first edge and bin count of the sampling table. */
  const DefaultZmin: real := 0.0005
  const DefaultBins: int := 10000
  /** Upper redshift of the standard-candle normalisation integral, fixed
      whatever the population horizon. */
  const CandleHorizon: real := 10.0

  datatype Population = Population(
    kind: Kind,
    law: Law,
    math: Math,
    provider: Provider,
    quad: Quadrature,
    cosmology: Cosmology,
    /** Luminosity distance at z = 1, cached at construction. */
    dL1: real,
    /** The sampling table, once `SetupRedshiftCdf` has built one. */
    table: Option<Table>)

  function Square(x: real): (r: real)
    ensures r >= 0.0 && (r == 0.0 <==> x == 0.0)
  {
    SignOfProduct(if x < 0.0 then -x else x, if x < 0.0 then -x else x);
    x * x
  }

  function Abs(x: real): (r: real)
    ensures r >= 0.0 && (r == x || r == -x)
  {
    if x < 0.0 then -x else x
  }

  function LuminosityDistance(p: Population, z: real): real
  {
    p.provider.luminosityDistance(p.cosmology, z)
  }

  /** The constructor: a parameter set without a curvature density is made
      flat (one with it is kept), `dL1` is the luminosity
      distance at z = 1 under the flattened parameters, and no sampling table
      exists yet. */
  function NewPopulation(kind: Kind, cosmology: Cosmology, law: Law, math: Math,
                         provider: Provider, quad: Quadrature): (p: Population)
    ensures cosmology.omegaK.Some? ==> p.cosmology == cosmology
    ensures cosmology.omegaK.None? ==>
              p.cosmology.omegaK.Some? &&
              p.cosmology.omegaM + p.cosmology.omegaL + p.cosmology.omegaK.value == 1.0
    ensures p.cosmology.omegaM == cosmology.omegaM && p.cosmology.omegaL == cosmology.omegaL
    ensures p.cosmology.h == cosmology.h
    ensures p.dL1 == provider.luminosityDistance(p.cosmology, 1.0)
    ensures p.kind == kind && p.law == law && p.table.None?
  {
    var flat := SetOmegaK0(cosmology);
    Population(kind, law, math, provider, quad, flat, provider.luminosityDistance(flat, 1.0), None)
  }

  // ---------------------------------------------------------------------
  // Redshift distribution

  /** Redshifts at which the distribution is defined: a transient population
      divides by `1 + z`. */
  predicate Defined(p: Population, z: real)
  {
    p.kind.Transient? ==> z != -1.0
  }

  /** `SourcePopulation.RedshiftDistribution`: 4 pi times the evolution law
      times the differential comoving volume. Where the law is positive its
      sign is that of the volume element. */
  function SteadyDistribution(p: Population, z: real): (r: real)
    ensures z > -1.0 ==>
              (r > 0.0 <==> p.provider.diffComovingVolume(p.cosmology, z) > 0.0) &&
              (r == 0.0 <==> p.provider.diffComovingVolume(p.cosmology, z) == 0.0)
  {
    var weight := 4.0 * Pi * Evaluate(p.law, p.math, z);
    var volume := p.provider.diffComovingVolume(p.cosmology, z);
    SignOfProduct(weight, volume);
    weight * volume
  }

  lemma SignOfProduct(w: real, v: real)
    ensures w > 0.0 ==> (w * v > 0.0 <==> v > 0.0) && (w * v == 0.0 <==> v == 0.0)
  {
    if w > 0.0 && v < 0.0 {
      assert w * (-v) > 0.0;
    }
  }

  /** The distribution of the population's kind: the transient override is
      the steady value divided by `1 + z`. */
  function RedshiftDistribution(p: Population, z: real): (r: real)
    requires Defined(p, z)
    ensures p.kind.Steady? ==> r == SteadyDistribution(p, z)
    ensures p.kind.Transient? ==> r * (1.0 + z) == SteadyDistribution(p, z)
  {
    var base := SteadyDistribution(p, z);
    match p.kind
    case Steady => base
    case Transient => base * 1.0 / (1.0 + z)
  }

  /** Above z = -1 and wherever the volume element is non-negative, the
      distribution of either kind is non-negative, and positive where the
      volume element is. */
  lemma DistributionSign(p: Population, z: real)
    requires z > -1.0
    requires p.provider.diffComovingVolume(p.cosmology, z) >= 0.0
    ensures RedshiftDistribution(p, z) >= 0.0
    ensures RedshiftDistribution(p, z) > 0.0 <==> p.provider.diffComovingVolume(p.cosmology, z) > 0.0
  {
    var r := RedshiftDistribution(p, z);
    if p.kind.Transient? {
      assert (1.0 + z) * r == SteadyDistribution(p, z);
      SignOfProduct(1.0 + z, r);
    }
  }

  /** `v` is the distribution of `p`'s kind at `z`: the steady value, or for
      a transient population the steady value diluted by `1 + z`. */
  predicate DistributionValue(p: Population, z: real, v: real)
  {
    && (p.kind.Steady? ==> v == SteadyDistribution(p, z))
    && (p.kind.Transient? ==> v * (1.0 + z) == SteadyDistribution(p, z))
  }

  /** `f` is defined wherever the distribution of `p` is, and equals it there. */
  ghost predicate IsDistributionOf(p: Population, f: real --> real)
  {
    forall z :: Defined(p, z) ==> f.requires(z) && DistributionValue(p, z, f(z))
  }

  /** The integrand of `RedshiftIntegral`: the method is looked up on the
      instance, so a transient population integrates the diluted rate. */
  function Integrand(p: Population): (f: real --> real)
    ensures IsDistributionOf(p, f)
  {
    z requires Defined(p, z) => RedshiftDistribution(p, z)
  }

  /** The integral of the distribution of the population's kind from 0 to
      `zmax`, by quadrature. */
  function RedshiftIntegral(p: Population, zmax: real): (r: real)
    ensures exists f: real --> real :: IsDistributionOf(p, f) && r == p.quad(f, 0.0, zmax)
  {
    var f := Integrand(p);
    var r := p.quad(f, 0.0, zmax);
    assert IsDistributionOf(p, f) && r == p.quad(f, 0.0, zmax);
    r
  }

  // ---------------------------------------------------------------------
  // Source count

  function LocalVolume(p: Population): real
  {
    p.provider.comovingVolume(p.cosmology, ZLocal)
  }

  /** `Nsources`: the local density times the local comoving volume, scaled
      by the ratio of the horizon integral to the local integral. Either
      integral being zero is a division by zero. */
  function Nsources(p: Population, density: real, zmax: real): (r: Result<real>)
    ensures r.Ok? <==> RedshiftIntegral(p, ZLocal) != 0.0 && RedshiftIntegral(p, zmax) != 0.0
    ensures r.Err? ==> r.error == DivisionByZero
    ensures r.Ok? ==>
              r.value * RedshiftIntegral(p, ZLocal) == density * LocalVolume(p) * RedshiftIntegral(p, zmax)
  {
    var vlocal := LocalVolume(p);
    var local := RedshiftIntegral(p, ZLocal);
    var horizon := RedshiftIntegral(p, zmax);
    if horizon == 0.0 then Err(DivisionByZero)
    else
      var ratio := local / horizon;
      if ratio == 0.0 then Err(DivisionByZero)
      else
        var n := density * vlocal / ratio;
        assert n * local == density * vlocal * horizon by {
          assert n * ratio == density * vlocal;
          assert ratio * horizon == local;
        }
        Ok(n)
  }

  /** The source count is linear in the local density. */
  lemma NsourcesLinear(p: Population, a: real, d1: real, d2: real, zmax: real)
    ensures Nsources(p, a * d1 + d2, zmax).Ok? <==> Nsources(p, d1, zmax).Ok?
    ensures Nsources(p, d1, zmax).Ok? ==>
              Nsources(p, a * d1 + d2, zmax).value ==
              a * Nsources(p, d1, zmax).value + Nsources(p, d2, zmax).value
  {
    if Nsources(p, d1, zmax).Ok? {
      var local := RedshiftIntegral(p, ZLocal);
      var c := LocalVolume(p) * RedshiftIntegral(p, zmax);
      var n, n1, n2 := Nsources(p, a * d1 + d2, zmax).value, Nsources(p, d1, zmax).value,
                       Nsources(p, d2, zmax).value;
      assert n * local == (a * d1 + d2) * c;
      assert n1 * local == d1 * c;
      assert n2 * local == d2 * c;
      assert (a * n1 + n2) * local == (a * d1 + d2) * c;
      CancelNonZero(n, a * n1 + n2, local);
    }
  }

  lemma ProductZero(x: real, y: real)
    ensures x * y == 0.0 <==> x == 0.0 || y == 0.0
  {
    if x != 0.0 && y != 0.0 {
      SignOfProduct(if x < 0.0 then -x else x, if y < 0.0 then -y else y);
    }
  }

  lemma CancelNonZero(x: real, y: real, k: real)
    requires k != 0.0
    requires x * k == y * k
    ensures x == y
  {
    assert (x - y) * k == 0.0;
  }

  /** For a non-negative density and local volume and a positive local
      integral, the count grows with the horizon integral. */
  lemma NsourcesMonotone(p: Population, density: real, z1: real, z2: real)
    requires density >= 0.0 && LocalVolume(p) >= 0.0
    requires RedshiftIntegral(p, ZLocal) > 0.0
    requires 0.0 < RedshiftIntegral(p, z1) <= RedshiftIntegral(p, z2)
    ensures Nsources(p, density, z1).Ok? && Nsources(p, density, z2).Ok?
    ensures Nsources(p, density, z1).value <= Nsources(p, density, z2).value
  {
    var local := RedshiftIntegral(p, ZLocal);
    var n1, n2 := Nsources(p, density, z1).value, Nsources(p, density, z2).value;
    var c := density * LocalVolume(p);
    assert c >= 0.0;
    assert n1 * local == c * RedshiftIntegral(p, z1);
    assert n2 * local == c * RedshiftIntegral(p, z2);
    assert c * RedshiftIntegral(p, z1) <= c * RedshiftIntegral(p, z2);
    assert local * (n2 - n1) >= 0.0;
    SignOfProduct(local, n2 - n1);
  }

  // ---------------------------------------------------------------------
  // Flux and luminosity

  /** `E * (E / E0)^(-gamma)`. */
  function FluxIntegrand(m: Math, e0: real, gamma: real): real -> real
    requires e0 != 0.0
  {
    (e: real) => e * m.pow(e / e0, -gamma)
  }

  /** The energy integral of the spectrum between `emin` and `emax`. */
  function FluxIntegral(p: Population, gamma: real, emin: real, emax: real, e0: real): real
    requires e0 != 0.0
  {
    p.quad(FluxIntegrand(p.math, e0, gamma), emin, emax)
  }

  /** The distance part of the conversion, in centimetres. */
  function DistanceCm(p: Population): real
  {
    p.dL1 * MpcToCm
  }

  /** `Flux2Lumi`: the luminosity at z = 1 of a source whose flux
      normalisation (already scaled by E0^2) is `fluxnorm`. A zero pivot
      energy is a division by zero. */
  function Flux2Lumi(p: Population, fluxnorm: real, index: real, emin: real, emax: real, e0: real)
    : (r: Result<real>)
    ensures r.Ok? <==> e0 != 0.0
    ensures r.Err? ==> r.error == DivisionByZero
  {
    if e0 == 0.0 then Err(DivisionByZero)
    else
      var integral := FluxIntegral(p, Abs(index), emin, emax, e0);
      Ok(fluxnorm / (e0 * e0) * integral * GevPerSecToErgsPerYear * 4.0 * Pi * Square(DistanceCm(p)))
  }

  /** `Lumi2Flux`: the flux normalisation of a source of luminosity
      `luminosity`; it divides by the distance and by the energy integral. */
  function Lumi2Flux(p: Population, luminosity: real, index: real, emin: real, emax: real, e0: real)
    : (r: Result<real>)
    ensures r.Ok? <==> e0 != 0.0 && p.dL1 != 0.0 && FluxIntegral(p, Abs(index), emin, emax, e0) != 0.0
    ensures r.Err? ==> r.error == DivisionByZero
  {
    ProductZero(p.dL1, MpcToCm);
    if e0 == 0.0 || Square(DistanceCm(p)) == 0.0 then Err(DivisionByZero)
    else
      var integral := FluxIntegral(p, Abs(index), emin, emax, e0);
      if integral == 0.0 then Err(DivisionByZero)
      else Ok(luminosity / 4.0 / Pi / Square(DistanceCm(p)) / GevPerSecToErgsPerYear / integral * (e0 * e0))
  }

  /** Both conversions depend on the spectral index only through its
      magnitude. */
  lemma IndexSignIrrelevant(p: Population, x: real, index: real, emin: real, emax: real, e0: real)
    ensures Flux2Lumi(p, x, index, emin, emax, e0) == Flux2Lumi(p, x, -index, emin, emax, e0)
    ensures Lumi2Flux(p, x, index, emin, emax, e0) == Lumi2Flux(p, x, -index, emin, emax, e0)
  {
    assert Abs(index) == Abs(-index);
    if e0 != 0.0 {
      assert Flux2Lumi(p, x, index, emin, emax, e0).value == Flux2Lumi(p, x, -index, emin, emax, e0).value;
      if Lumi2Flux(p, x, index, emin, emax, e0).Ok? {
        assert Lumi2Flux(p, x, index, emin, emax, e0).value == Lumi2Flux(p, x, -index, emin, emax, e0).value;
      }
    }
  }

  /** The luminosity is the flux normalisation times a conversion factor
      that is non-zero exactly when the distance and the integral are. */
  lemma Flux2LumiScales(p: Population, fluxnorm: real, index: real, emin: real, emax: real, e0: real)
    requires e0 != 0.0
    ensures Flux2Lumi(p, fluxnorm, index, emin, emax, e0).value ==
              fluxnorm * ConversionFactor(p, FluxIntegral(p, Abs(index), emin, emax, e0), e0)
  {
  }

  /** Luminosity per unit flux normalisation. */
  function ConversionFactor(p: Population, integral: real, e0: real): real
    requires e0 != 0.0
  {
    integral * GevPerSecToErgsPerYear * 4.0 * Pi * Square(DistanceCm(p)) / (e0 * e0)
  }

  /** The flux normalisation is the luminosity divided by the conversion
      factor. */
  lemma Lumi2FluxScales(p: Population, luminosity: real, index: real, emin: real, emax: real, e0: real)
    requires Lumi2Flux(p, luminosity, index, emin, emax, e0).Ok?
    ensures ConversionFactor(p, FluxIntegral(p, Abs(index), emin, emax, e0), e0) != 0.0
    ensures Lumi2Flux(p, luminosity, index, emin, emax, e0).value *
              ConversionFactor(p, FluxIntegral(p, Abs(index), emin, emax, e0), e0) == luminosity
  {
    var integral := FluxIntegral(p, Abs(index), emin, emax, e0);
    var d2 := Square(DistanceCm(p));
    var f := Lumi2Flux(p, luminosity, index, emin, emax, e0).value;
    var q := luminosity / 4.0 / Pi / d2 / GevPerSecToErgsPerYear / integral;
    assert f == q * (e0 * e0);
    assert q * integral * GevPerSecToErgsPerYear * d2 * Pi * 4.0 == luminosity;
    assert f * ConversionFactor(p, integral, e0) == q * integral * GevPerSecToErgsPerYear * 4.0 * Pi * d2;
  }

  /** Converting a flux to a luminosity and back returns the flux whenever
      the way back is defined, which is exactly when the distance and the
      energy integral are non-zero. */
  lemma FluxLumiRoundTrip(p: Population, fluxnorm: real, index: real, emin: real, emax: real, e0: real)
    requires e0 != 0.0
    ensures var lum := Flux2Lumi(p, fluxnorm, index, emin, emax, e0).value;
            && (Lumi2Flux(p, lum, index, emin, emax, e0).Ok? <==>
                  p.dL1 != 0.0 && FluxIntegral(p, Abs(index), emin, emax, e0) != 0.0)
            && (Lumi2Flux(p, lum, index, emin, emax, e0).Ok? ==>
                  Lumi2Flux(p, lum, index, emin, emax, e0).value == fluxnorm)
  {
  }

  /** Converting a luminosity to a flux and back returns the luminosity. */
  lemma LumiFluxRoundTrip(p: Population, luminosity: real, index: real, emin: real, emax: real, e0: real)
    requires Lumi2Flux(p, luminosity, index, emin, emax, e0).Ok?
    ensures var flux := Lumi2Flux(p, luminosity, index, emin, emax, e0).value;
            Flux2Lumi(p, flux, index, emin, emax, e0) == Ok(luminosity)
  {
    var flux := Lumi2Flux(p, luminosity, index, emin, emax, e0).value;
    Lumi2FluxScales(p, luminosity, index, emin, emax, e0);
    Flux2LumiScales(p, flux, index, emin, emax, e0);
    assert Flux2Lumi(p, flux, index, emin, emax, e0).value == luminosity;
  }

  // ---------------------------------------------------------------------
  // Standard candles

  /** The power of `1 + z` in the normalisation integrand is `2 - gamma` for
      steady sources and `3 - gamma` for transients. */
  function ExponentShift(kind: Kind): real
  {
    match kind
    case Steady => 2.0
    case Transient => 3.0
  }

  /** The all-sky flux, or for transients the all-sky fluence rate per year. */
  function AllSky(kind: Kind, fluxnorm: real): real
  {
    match kind
    case Steady => 4.0 * Pi * fluxnorm
    case Transient => 4.0 * Pi * fluxnorm * SecondsPerYear
  }

  predicate CandleDefined(p: Population, z: real)
  {
    Defined(p, z) && LuminosityDistance(p, z) != 0.0
  }

  /** `(1 + z)^(shift - gamma) / dL(z)^2 * dN/dz / norm`. */
  function CandleIntegrand(p: Population, gamma: real, norm: real): real --> real
    requires norm != 0.0
  {
    z requires CandleDefined(p, z) =>
      p.math.pow(1.0 + z, -gamma + ExponentShift(p.kind)) / Square(LuminosityDistance(p, z))
        * RedshiftDistribution(p, z) / norm
  }

  /** The normalisation integral, always over [0, 10]. */
  function CandleIntegral(p: Population, index: real, zmax: real): real
    requires RedshiftIntegral(p, zmax) != 0.0
  {
    p.quad(CandleIntegrand(p, Abs(index), RedshiftIntegral(p, zmax)), 0.0, CandleHorizon)
  }

  /** What the per-source normalisation is multiplied by to give the
      all-sky value: `N * dL1^2 * integral`. */
  function CandleDenominator(p: Population, density: real, zmax: real, index: real): real
    requires Nsources(p, density, zmax).Ok?
  {
    Nsources(p, density, zmax).value * Square(p.dL1) * CandleIntegral(p, index, zmax)
  }

  /** `StandardCandleSources` of either kind: the per-source normalisation
      `phi` at z = 1 such that the population's sources together reproduce
      the all-sky flux (fluence rate for transients):
      `phi * N * dL1^2 * integral == all-sky value`. */
  function StandardCandleSources(p: Population, fluxnorm: real, density: real, zmax: real, index: real)
    : (r: Result<real>)
    ensures r.Ok? <==>
              && Nsources(p, density, zmax).Ok?
              && Nsources(p, density, zmax).value != 0.0
              && p.dL1 != 0.0
              && CandleIntegral(p, index, zmax) != 0.0
    ensures r.Err? ==> r.error == DivisionByZero
    ensures r.Ok? ==> CandleDenominator(p, density, zmax, index) != 0.0
    ensures r.Ok? ==> r.value * CandleDenominator(p, density, zmax, index) == AllSky(p.kind, fluxnorm)
  {
    var ntotal :- Nsources(p, density, zmax);
    var allSky := AllSky(p.kind, fluxnorm);
    if ntotal == 0.0 || Square(p.dL1) == 0.0 then Err(DivisionByZero)
    else
      var integral := CandleIntegral(p, index, zmax);
      if integral == 0.0 then Err(DivisionByZero)
      else
        var phi := allSky / ntotal / Square(p.dL1) / integral;
        ProductZero(ntotal, Square(p.dL1));
        ProductZero(ntotal * Square(p.dL1), integral);
        assert phi * (ntotal * Square(p.dL1) * integral) == allSky by {
          assert phi * integral == allSky / ntotal / Square(p.dL1);
          assert phi * integral * Square(p.dL1) == allSky / ntotal;
        }
        Ok(phi)
  }

  /** The normalisation is linear in the observed flux. */
  lemma StandardCandleFluxLinear(p: Population, fluxnorm: real, density: real, zmax: real, index: real,
                                 a: real)
    ensures StandardCandleSources(p, a * fluxnorm, density, zmax, index).Ok? <==>
              StandardCandleSources(p, fluxnorm, density, zmax, index).Ok?
    ensures StandardCandleSources(p, fluxnorm, density, zmax, index).Ok? ==>
              StandardCandleSources(p, a * fluxnorm, density, zmax, index).value ==
                a * StandardCandleSources(p, fluxnorm, density, zmax, index).value
  {
    var r, ra := StandardCandleSources(p, fluxnorm, density, zmax, index),
                 StandardCandleSources(p, a * fluxnorm, density, zmax, index);
    if r.Ok? {
      var k := CandleDenominator(p, density, zmax, index);
      AllSkyLinear(p.kind, a, fluxnorm);
      assert (a * r.value) * k == a * (r.value * k);
      CancelNonZero(ra.value, a * r.value, k);
    }
  }

  /** Scaling the local density scales the source count by the same factor. */
  lemma NsourcesScale(p: Population, c: real, density: real, zmax: real)
    ensures Nsources(p, c * density, zmax).Ok? <==> Nsources(p, density, zmax).Ok?
    ensures Nsources(p, density, zmax).Ok? ==>
              Nsources(p, c * density, zmax).value == c * Nsources(p, density, zmax).value
    ensures Nsources(p, density, zmax).Ok? && c != 0.0 ==>
              (Nsources(p, c * density, zmax).value == 0.0 <==> Nsources(p, density, zmax).value == 0.0)
  {
    NsourcesLinear(p, c, density, 0.0, zmax);
    if Nsources(p, density, zmax).Ok? {
      assert 0.0 * LocalVolume(p) * RedshiftIntegral(p, zmax) == 0.0;
      assert Nsources(p, 0.0, zmax).value * RedshiftIntegral(p, ZLocal) == 0.0;
      ProductZero(Nsources(p, 0.0, zmax).value, RedshiftIntegral(p, ZLocal));
      ProductZero(c, Nsources(p, density, zmax).value);
    }
  }

  /** The normalisation is inversely proportional to the local density:
      scaling the density by `c` scales it by `1 / c`. */
  lemma StandardCandleDensityScaling(p: Population, fluxnorm: real, density: real, zmax: real,
                                     index: real, c: real)
    requires c != 0.0
    ensures StandardCandleSources(p, fluxnorm, c * density, zmax, index).Ok? <==>
              StandardCandleSources(p, fluxnorm, density, zmax, index).Ok?
    ensures StandardCandleSources(p, fluxnorm, c * density, zmax, index).Ok? ==>
              c * StandardCandleSources(p, fluxnorm, c * density, zmax, index).value ==
                StandardCandleSources(p, fluxnorm, density, zmax, index).value
  {
    CandleDefinedUnderDensityScaling(p, fluxnorm, density, zmax, index, c);
    if StandardCandleSources(p, fluxnorm, c * density, zmax, index).Ok? {
      CandleValueUnderDensityScaling(p, fluxnorm, density, zmax, index, c);
    }
  }

  lemma CandleDefinedUnderDensityScaling(p: Population, fluxnorm: real, density: real, zmax: real,
                                         index: real, c: real)
    requires c != 0.0
    ensures StandardCandleSources(p, fluxnorm, c * density, zmax, index).Ok? <==>
              StandardCandleSources(p, fluxnorm, density, zmax, index).Ok?
  {
    NsourcesScale(p, c, density, zmax);
  }

  lemma CandleValueUnderDensityScaling(p: Population, fluxnorm: real, density: real, zmax: real,
                                       index: real, c: real)
    requires c != 0.0
    requires StandardCandleSources(p, fluxnorm, c * density, zmax, index).Ok?
    requires StandardCandleSources(p, fluxnorm, density, zmax, index).Ok?
    ensures c * StandardCandleSources(p, fluxnorm, c * density, zmax, index).value ==
              StandardCandleSources(p, fluxnorm, density, zmax, index).value
  {
    NsourcesScale(p, c, density, zmax);
    var n := Nsources(p, density, zmax).value;
    var sq, j := Square(p.dL1), CandleIntegral(p, index, zmax);
    assert CandleDenominator(p, density, zmax, index) == n * sq * j;
    assert CandleDenominator(p, c * density, zmax, index) == (c * n) * sq * j;
    ScaledSolution(c, n, sq, j,
                   StandardCandleSources(p, fluxnorm, density, zmax, index).value,
                   StandardCandleSources(p, fluxnorm, c * density, zmax, index).value,
                   AllSky(p.kind, fluxnorm));
  }

  lemma ScaledSolution(c: real, n: real, sq: real, j: real, v: real, vc: real, a: real)
    requires n * sq * j != 0.0
    requires v * (n * sq * j) == a
    requires vc * ((c * n) * sq * j) == a
    ensures c * vc == v
  {
    ScaleFirstFactor(c, n, sq, j);
    assert (c * vc) * (n * sq * j) == vc * ((c * n) * sq * j);
    CancelNonZero(c * vc, v, n * sq * j);
  }

  lemma ScaleFirstFactor(c: real, x: real, y: real, z: real)
    ensures (c * x) * y * z == c * (x * y * z)
  {
  }

  lemma AllSkyLinear(kind: Kind, a: real, fluxnorm: real)
    ensures AllSky(kind, a * fluxnorm) == a * AllSky(kind, fluxnorm)
  {
  }

  // ---------------------------------------------------------------------
  // Sampling table

  /** `np.arange(zmin, zmax, zmax / bins)`. */
  function Edges(zmin: real, zmax: real, bins: int): seq<real>
    requires bins != 0 && zmax != 0.0
  {
    Arange(zmin, zmax, zmax / bins as real)
  }

  /** The distribution evaluated at each edge. */
  function Pdf(p: Population, edges: seq<real>): (pdf: seq<real>)
    requires forall i :: 0 <= i < |edges| ==> Defined(p, edges[i])
    ensures |pdf| == |edges|
    ensures forall i :: 0 <= i < |edges| ==> DistributionValue(p, edges[i], pdf[i])
    ensures forall i :: 0 <= i < |edges| ==> pdf[i] == RedshiftDistribution(p, edges[i])
  {
    seq(|edges|, i requires 0 <= i < |edges| => RedshiftDistribution(p, edges[i]))
  }

  /** `setup_redshift_cdf`: bin edges `zmin, zmin + step, ...` below `zmax`
      with `step = zmax / bins`, the distribution evaluated at each edge, its
      running sum normalised by the last entry. The new table replaces any
      earlier one; nothing else changes. */
  function SetupRedshiftCdf(p: Population, zmax: real, zmin: real, bins: int): (r: Result<Population>)
    ensures bins == 0 || zmax == 0.0 ==> r == Err(DivisionByZero)
    ensures bins != 0 && zmax / bins as real != 0.0 ==>
              var edges := Edges(zmin, zmax, bins);
              && (r.Ok? <==>
                    && (forall i :: 0 <= i < |edges| ==> Defined(p, edges[i]))
                    && |edges| > 0
                    && Sum(Pdf(p, edges)) != 0.0)
              && (|edges| == 0 ==> r == Err(IndexOutOfBounds(-1, 0)))
              && (r.Err? && |edges| > 0 ==> r == Err(DivisionByZero))
    ensures r.Ok? ==> r.value == p.(table := r.value.table) && r.value.table.Some?
    ensures r.Ok? ==>
              var t := r.value.table.value;
              && t.bins == Edges(zmin, zmax, bins)
              && |t.cdf| == |t.bins| > 0
              && (forall i :: 0 <= i < |t.bins| ==> Defined(p, t.bins[i]))
              && NormalizedCumSum(Pdf(p, t.bins)) == Ok(t.cdf)
    ensures r.Ok? && zmax / bins as real > 0.0 ==>
              var t := r.value.table.value;
              && t.bins[0] == zmin
              && StrictlyIncreasing(t.bins)
              && (forall i :: 0 <= i < |t.bins| ==> zmin <= t.bins[i] < zmax)
    ensures r.Ok? && AllNonNegative(Pdf(p, r.value.table.value.bins)) ==> Normalised(r.value.table.value)
  {
    if bins == 0 then Err(DivisionByZero)
    else
      var step := zmax / bins as real;
      if step == 0.0 then Err(DivisionByZero)
      else
        var edges := Arange(zmin, zmax, step);
        if !(forall i :: 0 <= i < |edges| ==> Defined(p, edges[i])) then Err(DivisionByZero)
        else
          var pdf := Pdf(p, edges);
          var cdf :- NormalizedCumSum(pdf);
          ArangeIncreasing(zmin, zmax, step);
          assert AllNonNegative(pdf) ==> IsCdf(cdf) by {
            if AllNonNegative(pdf) { NormalizedCumSumIsCdf(pdf); }
          }
          Ok(p.(table := Some(Table(edges, cdf))))
  }

  /** Above z = -1, wherever the volume element is non-negative at every
      edge, the evaluated distribution is non-negative. */
  lemma PdfNonNegative(p: Population, edges: seq<real>)
    requires forall i :: 0 <= i < |edges| ==> edges[i] > -1.0
    requires forall i :: 0 <= i < |edges| ==> p.provider.diffComovingVolume(p.cosmology, edges[i]) >= 0.0
    ensures forall i :: 0 <= i < |edges| ==> Defined(p, edges[i])
    ensures AllNonNegative(Pdf(p, edges))
  {
    forall i | 0 <= i < |edges|
      ensures Pdf(p, edges)[i] >= 0.0
    {
      DistributionSign(p, edges[i]);
    }
  }

  /** The table attributes of an instance: `redshift_bins` and
      `redshift_cdf` are present once `setup_redshift_cdf` has built a table,
      absent (`AttributeError`) before; any other table attribute name, such
      as a misspelling, is absent. */
  function TableAttribute(p: Population, name: string): (r: Result<seq<real>>)
    ensures r.Ok? <==> p.table.Some? && (name == "redshift_bins" || name == "redshift_cdf")
    ensures r.Ok? ==> r.value == (if name == "redshift_bins" then p.table.value.bins else p.table.value.cdf)
    ensures r.Err? ==> r.error == MissingAttribute(name)
  {
    match p.table
    case Some(t) =>
      if name == "redshift_bins" then Ok(t.bins)
      else if name == "redshift_cdf" then Ok(t.cdf)
      else Err(MissingAttribute(name))
    case None => Err(MissingAttribute(name))
  }

  /** The body of `sample_redshift`, reading the cumulative table from the
      attribute `cdfName`: one draw per uniform variate in `us`. */
  function SampleFrom(p: Population, cdfName: string, us: seq<real>): Result<seq<real>>
  {
    var cdf :- TableAttribute(p, cdfName);
    var bins :- TableAttribute(p, "redshift_bins");
    DrawAll(Table(bins, cdf), us)
  }

  /** `sample_redshift` as written: it reads `redshif_cdf`, an attribute
      nothing ever sets, so every call fails. */
  function SampleRedshiftAsWritten(p: Population, us: seq<real>): (r: Result<seq<real>>)
    ensures r == Err(MissingAttribute("redshif_cdf"))
  {
    SampleFrom(p, "redshif_cdf", us)
  }

  /** `sample_redshift` reading `redshift_cdf` as evidently intended: before
      any table is built it fails naming that attribute; afterwards each
      variate is mapped to a bin edge by the left search. */
  function SampleRedshift(p: Population, us: seq<real>): (r: Result<seq<real>>)
    ensures p.table.None? ==> r == Err(MissingAttribute("redshift_cdf"))
    ensures p.table.Some? ==> r == DrawAll(p.table.value, us)
    ensures r.Ok? ==> |r.value| == |us|
    ensures r.Ok? ==> forall k :: 0 <= k < |us| ==> r.value[k] in p.table.value.bins
    ensures p.table.Some? && Normalised(p.table.value) ==>
              (forall k :: 0 <= k < |us| ==> 0.0 <= us[k] < 1.0) ==> r.Ok?
  {
    SampleFrom(p, "redshift_cdf", us)
  }

  /** The misspelt attribute makes sampling fail on every population on
      which the intended attribute samples successfully. */
  lemma MisspeltAttributeBreaksSampling(p: Population, u: real)
    requires p.table.Some? && Normalised(p.table.value)
    requires 0.0 <= u < 1.0
    ensures SampleRedshift(p, [u]).Ok?
    ensures SampleRedshiftAsWritten(p, [u]).Err?
  {
  }

  /** Sampling after setup: with a positive step and the
      distribution defined and non-negative at every edge and positive at
      some edge, setup succeeds and every draw in [0, 1) lands on a bin edge
      in [zmin, zmax): the edge at the first cumulative entry not below the
      draw. */
  lemma SampleWithinHorizon(p: Population, zmax: real, zmin: real, bins: int, us: seq<real>)
    requires bins != 0 && zmax / bins as real > 0.0
    requires forall i :: 0 <= i < |Edges(zmin, zmax, bins)| ==> Defined(p, Edges(zmin, zmax, bins)[i])
    requires AllNonNegative(Pdf(p, Edges(zmin, zmax, bins)))
    requires exists i :: 0 <= i < |Edges(zmin, zmax, bins)| && Pdf(p, Edges(zmin, zmax, bins))[i] > 0.0
    requires forall k :: 0 <= k < |us| ==> 0.0 <= us[k] < 1.0
    ensures SetupRedshiftCdf(p, zmax, zmin, bins).Ok?
    ensures var q := SetupRedshiftCdf(p, zmax, zmin, bins).value;
            var t := q.table.value;
            && SampleRedshift(q, us).Ok?
            && |SampleRedshift(q, us).value| == |us|
            && forall k :: 0 <= k < |us| ==>
                 && zmin <= SampleRedshift(q, us).value[k] < zmax
                 && SampleRedshift(q, us).value[k] == t.bins[FirstAtLeast(t.cdf, us[k])]
  {
    var edges := Edges(zmin, zmax, bins);
    var pdf := Pdf(p, edges);
    PositiveSum(pdf);
    var q := SetupRedshiftCdf(p, zmax, zmin, bins).value;
    var t := q.table.value;
    var zs := SampleRedshift(q, us).value;
    forall k | 0 <= k < |us|
      ensures zmin <= zs[k] < zmax
      ensures zs[k] == t.bins[FirstAtLeast(t.cdf, us[k])]
    {
      assert Draw(t, us[k]) == Ok(zs[k]);
    }
  }
}

=== FILE: tables.dfy ===
/** The sequence algorithms behind inverse-transform sampling of redshifts:
    `np.arange`, `np.cumsum`, normalisation by the last entry and the
    left-biased `np.searchsorted`, over exact reals. */
module Tables {
  import opened Results

  // ---------------------------------------------------------------------
  // Sums

  /** Reference sum of a sequence. */
  function Sum(s: seq<real>): real
  {
    if |s| == 0 then 0.0 else s[0] + Sum(s[1..])
  }

  predicate AllNonNegative(s: seq<real>)
  {
    forall i :: 0 <= i < |s| ==> s[i] >= 0.0
  }

  lemma {:induction false} SumAppend(s: seq<real>, x: real)
    ensures Sum(s + [x]) == Sum(s) + x
  {
    if |s| == 0 {
      assert s + [x] == [x];
    } else {
      assert (s + [x])[1..] == s[1..] + [x];
      SumAppend(s[1..], x);
    }
  }

  lemma PrefixSumStep(s: seq<real>, i: nat)
    requires i < |s|
    ensures Sum(s[..i + 1]) == Sum(s[..i]) + s[i]
  {
    assert s[..i + 1] == s[..i] + [s[i]];
    SumAppend(s[..i], s[i]);
  }

  /** Prefix sums of a non-negative sequence are non-negative and grow with
      the prefix. */
  lemma {:induction false} PrefixSumMonotone(s: seq<real>, i: nat, j: nat)
    requires AllNonNegative(s)
    requires i <= j <= |s|
    ensures 0.0 <= Sum(s[..i]) <= Sum(s[..j])
  {
    if j == 0 {
      assert s[..0] == [];
    } else if i == j {
      PrefixSumMonotone(s, 0, i);
    } else {
      PrefixSumMonotone(s, i, j - 1);
      PrefixSumStep(s, j - 1);
    }
  }

  // ---------------------------------------------------------------------
  // Cumulative sum and normalisation

  /** A prefix sum splits into the head and a prefix sum of the tail. */
  lemma PrefixSumsShift(s: seq<real>)
    requires |s| > 0
    ensures forall i :: 0 <= i < |s| ==> Sum(s[..i + 1]) == s[0] + Sum(s[1..][..i])
  {
    forall i | 0 <= i < |s|
      ensures Sum(s[..i + 1]) == s[0] + Sum(s[1..][..i])
    {
      assert s[..i + 1][1..] == s[1..][..i];
    }
  }

  /** `np.cumsum` continuing from `acc`: a left-to-right running total. */
  function RunningSum(s: seq<real>, acc: real): (r: seq<real>)
    ensures |r| == |s|
    ensures forall i :: 0 <= i < |s| ==> r[i] == acc + Sum(s[..i + 1])
  {
    if |s| == 0 then []
    else
      PrefixSumsShift(s);
      [acc + s[0]] + RunningSum(s[1..], acc + s[0])
  }

  /** `np.cumsum`: entry `i` is the sum of the first `i + 1` entries. */
  function CumSum(s: seq<real>): (r: seq<real>)
    ensures |r| == |s|
    ensures forall i :: 0 <= i < |s| ==> r[i] == Sum(s[..i + 1])
    ensures |s| > 0 ==> r[|s| - 1] == Sum(s)
  {
    assert |s| > 0 ==> s[..|s|] == s;
    RunningSum(s, 0.0)
  }

  /** Element-wise division by `t`. */
  function Normalize(c: seq<real>, t: real): (r: seq<real>)
    requires t != 0.0
    ensures |r| == |c|
    ensures forall i :: 0 <= i < |c| ==> r[i] * t == c[i]
  {
    seq(|c|, i requires 0 <= i < |c| => c[i] / t)
  }

  predicate Sorted(s: seq<real>)
  {
    forall i, j :: 0 <= i <= j < |s| ==> s[i] <= s[j]
  }

  /** A cumulative distribution table: non-decreasing, within [0, 1] and
      ending at exactly 1. */
  predicate IsCdf(c: seq<real>)
  {
    && |c| > 0
    && Sorted(c)
    && (forall i :: 0 <= i < |c| ==> 0.0 <= c[i] <= 1.0)
    && c[|c| - 1] == 1.0
  }

  /** `np.cumsum` followed by division by the last entry.
      An empty table has no last entry (`IndexError`); a zero last entry is a
      division by zero. */
  function NormalizedCumSum(pdf: seq<real>): (r: Result<seq<real>>)
    ensures r.Ok? <==> |pdf| > 0 && Sum(pdf) != 0.0
    ensures |pdf| == 0 ==> r == Err(IndexOutOfBounds(-1, 0))
    ensures |pdf| > 0 && Sum(pdf) == 0.0 ==> r == Err(DivisionByZero)
    ensures r.Ok? ==> |r.value| == |pdf|
    ensures r.Ok? ==> forall i :: 0 <= i < |pdf| ==> r.value[i] * Sum(pdf) == CumSum(pdf)[i]
  {
    var cs := CumSum(pdf);
    if |cs| == 0 then Err(IndexOutOfBounds(-1, 0))
    else if cs[|cs| - 1] == 0.0 then Err(DivisionByZero)
    else Ok(Normalize(cs, cs[|cs| - 1]))
  }

  /** The running sum of a non-negative sequence is non-negative and
      non-decreasing. */
  lemma CumSumSorted(pdf: seq<real>)
    requires AllNonNegative(pdf)
    ensures Sorted(CumSum(pdf))
    ensures forall i :: 0 <= i < |pdf| ==> CumSum(pdf)[i] >= 0.0
  {
    var cs := CumSum(pdf);
    forall i, j | 0 <= i <= j < |cs|
      ensures 0.0 <= cs[i] <= cs[j]
    {
      PrefixSumMonotone(pdf, i + 1, j + 1);
    }
  }

  /** A non-negative, non-decreasing sequence with a positive last entry,
      divided by that entry, is a cumulative distribution table. */
  lemma NormalizeByLastIsCdf(cs: seq<real>)
    requires |cs| > 0
    requires Sorted(cs)
    requires cs[0] >= 0.0
    requires cs[|cs| - 1] > 0.0
    ensures IsCdf(Normalize(cs, cs[|cs| - 1]))
  {
    var t := cs[|cs| - 1];
    var c := Normalize(cs, t);
    forall i, j | 0 <= i <= j < |c|
      ensures 0.0 <= c[i] <= c[j] <= 1.0
    {
      DivideOrdered(cs[i], c[i], cs[j], c[j], t);
      DivideOrdered(cs[j], c[j], t, 1.0, t);
    }
    UnitQuotient(c[|c| - 1], t);
  }

  /** Normalising the running sum of a non-negative sequence succeeds exactly
      when some entry is positive, and then yields a cumulative distribution
      table. */
  lemma {:induction false} NormalizedCumSumIsCdf(pdf: seq<real>)
    requires AllNonNegative(pdf)
    ensures NormalizedCumSum(pdf).Ok? <==> exists i :: 0 <= i < |pdf| && pdf[i] > 0.0
    ensures NormalizedCumSum(pdf).Ok? ==> IsCdf(NormalizedCumSum(pdf).value)
  {
    PositiveSum(pdf);
    if NormalizedCumSum(pdf).Ok? {
      CumSumSorted(pdf);
      NormalizeByLastIsCdf(CumSum(pdf));
    }
  }

  /** A non-negative sequence has a positive sum exactly when one of its
      entries is positive. */
  lemma {:induction false} PositiveSum(s: seq<real>)
    requires AllNonNegative(s)
    ensures Sum(s) >= 0.0
    ensures Sum(s) > 0.0 <==> exists i :: 0 <= i < |s| && s[i] > 0.0
  {
    if |s| > 0 {
      assert AllNonNegative(s[1..]);
      PositiveSum(s[1..]);
      if Sum(s[1..]) > 0.0 {
        var k :| 0 <= k < |s[1..]| && s[1..][k] > 0.0;
        assert s[k + 1] > 0.0;
      }
      if exists i :: 0 <= i < |s| && s[i] > 0.0 {
        var i :| 0 <= i < |s| && s[i] > 0.0;
        if i > 0 {
          assert s[1..][i - 1] > 0.0;
        }
      }
    }
  }

  /** Dividing an ordered pair of non-negative reals by the same positive
      real keeps the order. */
  lemma DivideOrdered(a: real, qa: real, b: real, qb: real, t: real)
    requires t > 0.0
    requires 0.0 <= a <= b
    requires qa * t == a && qb * t == b
    ensures 0.0 <= qa <= qb
  {
  }

  lemma UnitQuotient(q: real, t: real)
    requires t > 0.0
    requires q * t == t
    ensures q == 1.0
  {
  }

  // ---------------------------------------------------------------------
  // np.arange

  /** The least integer not below `q`. */
  function Ceiling(q: real): (n: int)
    ensures q <= n as real < q + 1.0
  {
    -((-q).Floor)
  }

  /** Number of elements of `np.arange(start, stop, step)`. */
  function ArangeLength(start: real, stop: real, step: real): nat
    requires step != 0.0
  {
    var q := (stop - start) / step;
    if q <= 0.0 then 0 else Ceiling(q)
  }

  /** `np.arange(start, stop, step)` over exact reals: the grid points
      `start + i * step` strictly before `stop`, in order. */
  function Arange(start: real, stop: real, step: real): (r: seq<real>)
    requires step != 0.0
    ensures |r| == ArangeLength(start, stop, step)
    ensures forall i :: 0 <= i < |r| ==> r[i] == start + (i as real) * step
    ensures step > 0.0 ==> forall i :: 0 <= i < |r| ==> r[i] < stop
    ensures step > 0.0 ==> start + (|r| as real) * step >= stop
    ensures step < 0.0 ==> forall i :: 0 <= i < |r| ==> r[i] > stop
    ensures step < 0.0 ==> start + (|r| as real) * step <= stop
  {
    var r := seq(ArangeLength(start, stop, step), i => start + (i as real) * step);
    GridBelowStop(start, stop, step, r);
    GridEndReachesStop(start, stop, step);
    r
  }

  /** Every point of the grid lies strictly before `stop`. */
  lemma GridBelowStop(start: real, stop: real, step: real, r: seq<real>)
    requires step != 0.0
    requires |r| == ArangeLength(start, stop, step)
    requires forall i :: 0 <= i < |r| ==> r[i] == start + (i as real) * step
    ensures step > 0.0 ==> forall i :: 0 <= i < |r| ==> r[i] < stop
    ensures step < 0.0 ==> forall i :: 0 <= i < |r| ==> r[i] > stop
  {
    var q := (stop - start) / step;
    assert q * step == stop - start;
    forall i | 0 <= i < |r|
      ensures step > 0.0 ==> r[i] < stop
      ensures step < 0.0 ==> r[i] > stop
    {
      assert (i as real) < q;
      if step > 0.0 {
        assert (q - i as real) * step > 0.0;
      } else {
        assert (q - i as real) * step < 0.0;
      }
    }
  }

  /** The first grid point past the end is at or beyond `stop`. */
  lemma GridEndReachesStop(start: real, stop: real, step: real)
    requires step != 0.0
    ensures step > 0.0 ==> start + (ArangeLength(start, stop, step) as real) * step >= stop
    ensures step < 0.0 ==> start + (ArangeLength(start, stop, step) as real) * step <= stop
  {
    var q := (stop - start) / step;
    var n := ArangeLength(start, stop, step);
    assert q * step == stop - start;
    if q <= 0.0 {
      assert n == 0;
      if step > 0.0 {
        assert q * step <= 0.0;
      } else {
        assert q * step >= 0.0;
      }
    } else {
      assert (n as real) >= q;
      if step > 0.0 {
        assert (n as real - q) * step >= 0.0;
      } else {
        assert (n as real - q) * step <= 0.0;
      }
    }
  }

  predicate StrictlyIncreasing(s: seq<real>)
  {
    forall i, j :: 0 <= i < j < |s| ==> s[i] < s[j]
  }

  /** With a positive step the grid starts at `start` and strictly increases. */
  lemma ArangeIncreasing(start: real, stop: real, step: real)
    requires step != 0.0
    ensures step > 0.0 ==> StrictlyIncreasing(Arange(start, stop, step))
    ensures |Arange(start, stop, step)| > 0 ==> Arange(start, stop, step)[0] == start
  {
    var r := Arange(start, stop, step);
    if step > 0.0 {
      forall i, j | 0 <= i < j < |r|
        ensures r[i] < r[j]
      {
        assert (j as real - i as real) * step > 0.0;
      }
    }
  }

  // ---------------------------------------------------------------------
  // np.searchsorted(a, v, side='left')

  /** Reference definition: the first index whose entry is at least `v`, or
      `|a|` when there is none. */
  function FirstAtLeast(a: seq<real>, v: real): (i: nat)
    ensures i <= |a|
    ensures forall k :: 0 <= k < i ==> a[k] < v
    ensures i < |a| ==> a[i] >= v
  {
    if |a| == 0 then 0
    else if a[0] >= v then 0
    else 1 + FirstAtLeast(a[1..], v)
  }

  /** The binary search of `np.searchsorted` on the window `[lo, hi)`. */
  function SearchLeft(a: seq<real>, v: real, lo: nat, hi: nat): (i: nat)
    requires lo <= hi <= |a|
    ensures lo <= i <= hi
    ensures Sorted(a) && (lo > 0 ==> a[lo - 1] < v) && (hi < |a| ==> a[hi] >= v) ==>
              (i > 0 ==> a[i - 1] < v) && (i < |a| ==> a[i] >= v)
    decreases hi - lo
  {
    if lo == hi then lo
    else
      var mid := lo + (hi - lo) / 2;
      if a[mid] < v then SearchLeft(a, v, mid + 1, hi) else SearchLeft(a, v, lo, mid)
  }

  /** `np.searchsorted(a, v)`: an insertion point in `[0, |a|]`; on a sorted
      array, every entry before it is below `v` and every entry from it on is
      at least `v`. */
  function SearchSorted(a: seq<real>, v: real): (i: nat)
    ensures i <= |a|
    ensures Sorted(a) ==> forall k :: 0 <= k < i ==> a[k] < v
    ensures Sorted(a) ==> forall k :: i <= k < |a| ==> a[k] >= v
  {
    SearchLeft(a, v, 0, |a|)
  }

  /** On a sorted array the binary search finds the least index whose entry
      is at least `v` (ties resolved to the lower index). */
  lemma SearchSortedIsFirstAtLeast(a: seq<real>, v: real)
    requires Sorted(a)
    ensures SearchSorted(a, v) == FirstAtLeast(a, v)
  {
    var i, j := SearchSorted(a, v), FirstAtLeast(a, v);
    assert i < |a| ==> a[i] >= v;
    assert j < |a| ==> a[j] >= v;
  }

  // ---------------------------------------------------------------------
  // Drawing from a table

  /** Redshift bin edges and the cumulative distribution over them. */
  datatype Table = Table(bins: seq<real>, cdf: seq<real>)

  predicate Normalised(t: Table)
  {
    |t.bins| == |t.cdf| && IsCdf(t.cdf)
  }

  /** One inverse-transform draw: the bin edge at the search position of `u`,
      or `IndexError` when the search runs off the end. */
  function Draw(t: Table, u: real): (r: Result<real>)
    ensures r.Ok? ==> r.value in t.bins
    ensures r.Err? <==> SearchSorted(t.cdf, u) >= |t.bins|
    ensures r.Err? ==> r.error == IndexOutOfBounds(SearchSorted(t.cdf, u), |t.bins|)
    ensures Normalised(t) && 0.0 <= u < 1.0 ==>
              FirstAtLeast(t.cdf, u) < |t.bins| && r == Ok(t.bins[FirstAtLeast(t.cdf, u)])
  {
    var i := SearchSorted(t.cdf, u);
    if i < |t.bins| then Ok(t.bins[i]) else Err(IndexOutOfBounds(i, |t.bins|))
  }

  /** Vectorised draws: all succeed, or the first failing index is reported. */
  function DrawAll(t: Table, us: seq<real>): (r: Result<seq<real>>)
    ensures r.Ok? ==> |r.value| == |us|
    ensures r.Ok? ==> forall k :: 0 <= k < |us| ==> Draw(t, us[k]) == Ok(r.value[k])
    ensures r.Err? ==> exists k :: 0 <= k < |us| && Draw(t, us[k]) == Err(r.error)
    ensures Normalised(t) && (forall k :: 0 <= k < |us| ==> 0.0 <= us[k] < 1.0) ==> r.Ok?
  {
    if |us| == 0 then Ok([])
    else
      var z :- Draw(t, us[0]);
      var rest :- DrawAll(t, us[1..]);
      Ok([z] + rest)
  }
}
